=== FILE: README.md ===
# Redux core: `createStore` and `combineReducers` in Dafny

This project models the two parts of Redux that carry state and failure
rules.

- **The store.** `createStore` holds the current state, the current
  reducer, two listener arrays (`currentListeners` and `nextListeners`)
  and the `isDispatching` flag. `dispatch`, `subscribe` with its
  `unsubscribe` closures, `replaceReducer` and the bootstrap `INIT`
  dispatch act on them.
- **The reducer combinator.** `combineReducers` keeps the function-valued
  entries and probes their shape. It returns the `combination` reducer,
  which fans one action out to every slice and preserves identity when
  nothing changed.

## How the model is built

- **JavaScript values** (`Js.Value`) carry an explicit reference for
  objects and functions. `Js.Identical` is `===`: it compares references
  for objects and functions and compares values otherwise. Object literals
  that the library itself creates get their reference from an explicit
  allocation number: the store's `alloc` counter, or the `alloc`
  parameter of a `combination` call.
- **Errors.** Every throw is a `Completion`. `Abrupt(e)` carries which
  error occurred, but not its message text.
- **The store's closure variables** form an immutable `Store.Store`
  record, and every operation returns the new record.
  - Listener arrays live in a small heap, `arrays`.
  - `currentListeners` and `nextListeners` are indices into it, so
    "the same array" is a real aliasing relation and copy-on-write is
    modelled as written.
  - `Store.Valid` ties the next array to the live subscriptions as a
    multiset.
  - `Store.Frozen` and `Store.Evolves` say that the array being notified
    never changes.
- **Listeners** are identifiers. What a listener does when called is given
  by a `World`: a list of store operations it performs (`getState`,
  `subscribe`, calling an `unsubscribe`, `dispatch`, `replaceReducer`,
  `throw`).
  - A listener's `dispatch` therefore runs a nested dispatch, with its own
    notification, inside the outer loop. The operation list is fixed when
    the listener is called, and the first operation that throws ends the
    listener (see "## Left out").
  - The engine's stack limit is a `depth` budget: running out throws
    `RangeError`.
- **Reducers** are pure functions from state and action to a completion.
- **The `combination` closure's state** is the captured slices, the
  captured shape error and the unexpected-key cache. The cache is passed
  in and returned.

The flag exists to stop a reducer from dispatching (createStore.js:124-127).
The code lowers `isDispatching` in the `finally` block, before listeners run
(createStore.js:131-140). Only a reducer that dispatches is
rejected. A listener's dispatch goes through, and its nested notification
runs before the outer loop continues. The model follows the code
(`StoreLemmas.ReducerCannotDispatch`, `StoreLemmas.ListenersMayDispatch`).

"Subscribe, then unsubscribe at once, restores the listeners" holds only
as a multiset. When the same listener function is subscribed twice,
`indexOf` finds, and `splice` removes, the EARLIER copy. The other copy
still fires on the next dispatch (`StoreLemmas.SubscribeThenUnsubscribe`).

## Model

| member | source | states |
|---|---|---|
| ActionTypes.InitAction | createStore.js:5-7 | `{ type: INIT }` is a plain object whose `type` reads as the string "@@redux/INIT" |
| ActionTypes.ProbeType | combineReducers.js:75 | every probe type starts with "@@redux/PROBE_UNKNOWN_ACTION_" and is never equal to INIT, whatever the random text |
| JsArray.IndexOf | createStore.js:95 | `indexOf` is -1 exactly when the listener is absent; otherwise it is the first position holding it |
| JsArray.Splice1 | createStore.js:96 | `splice(i, 1)` removes position i; with -1 it removes the last element; past the end it changes nothing |
| Store.EnsureCanMutateNextListeners | createStore.js:52-56 | afterwards `nextListeners` is a different array from `currentListeners` with the same contents, and no array that could be notified has changed |
| Store.GetState | createStore.js:63-65 | its contract is its body: `getState()` returns the current state; what that state is after each operation is stated by `Store.Commit`, `StoreLemmas.DispatchPassive`, `StoreLemmas.ReplaceReducerPassive` and `StoreLemmas.CounterDispatchedTwice` |
| Store.Subscribe | createStore.js:73-83 | rejects a non-function listener and leaves the store as it was; otherwise appends the listener at the end of `nextListeners`, leaves `currentListeners` and its contents alone, and returns a new live subscription |
| Store.Unsubscribe | createStore.js:85-97 | the first call removes the first occurrence of the listener from `nextListeners` (the multiset loses exactly one copy), leaves the notified array alone, and marks the subscription dead; a later call leaves the store unchanged |
| Store.RemoveListener | createStore.js:93-96 | while `isSubscribed` is true the listener is in `nextListeners`, so `indexOf` cannot be -1, and removing it keeps the listener multiset equal to the live subscriptions |
| Store.RemoveFromNextListeners | createStore.js:94-96 | `ensureCanMutateNextListeners()` then the splice: the first occurrence of the listener leaves `nextListeners` (the multiset loses exactly one copy), the array being notified and its contents stay as they were, and the flag and state are untouched |
| Store.SpliceNext | createStore.js:95-96 | on a `nextListeners` that is already private, `splice(indexOf(listener), 1)` removes the first occurrence and changes no other array and no other part of the store |
| Store.Commit | createStore.js:107-140 | the three checks run in order: plain object, then defined `type`, then not dispatching; each failure leaves the store as it was; a throwing reducer keeps the old state; on success the state is the reducer's result, the flag is down, and `currentListeners` becomes `nextListeners` |
| Store.Dispatch | createStore.js:107-148 | a rejected dispatch returns the unchanged store and notifies nobody; on success it returns the very action it was given after notifying exactly the snapshot of `nextListeners`, in order; a listener's throw stops the loop after a non-empty prefix; the flag ends as it started |
| Store.Notify | createStore.js:140-144 | the loop over the live array calls exactly the snapshot's listeners in order, or a prefix of them up to one that throws, whatever those listeners do to the store |
| Store.RunOps | createStore.js:142-143 | one `listener()` call: whatever the listener does (subscribe, unsubscribe, nested dispatch, replaceReducer, throw), the store invariant holds afterwards, the array being notified keeps its contents, and the flag ends as it started |
| Store.ReplaceReducer | createStore.js:155-163 | a non-function is rejected with the store unchanged; if the new reducer throws on `{ type: INIT }` the error escapes, the new reducer stays installed and the state is kept; with no listeners the state becomes `nextReducer(oldState, { type: INIT })`; every outcome keeps the store invariant and the flag |
| Store.CreateStore | createStore.js:18-206 | a function as second argument with no third becomes the enhancer; a defined non-function enhancer is rejected; a function enhancer takes over construction; a non-function reducer is rejected; otherwise the state is `reducer(preloadedState, { type: INIT })`, or that call's error is thrown, with no listeners and the flag down |
| StoreLemmas.UnsubscribeIdempotent | createStore.js:85-91 | calling an `unsubscribe` closure twice has the effect of calling it once |
| StoreLemmas.SubscribeThenUnsubscribe | createStore.js:73-97 | subscribe followed by its own unsubscribe restores the multiset of next listeners and of live subscriptions, and never touches the notified array |
| StoreLemmas.ReducerCannotDispatch | createStore.js:124-136 | a dispatch made while the reducer runs (flag raised) fails with the reentrancy error |
| StoreLemmas.ListenersMayDispatch | createStore.js:131-144 | after the reducer returns the flag is down, so a listener's dispatch passes every check and succeeds exactly when its reducer call does |
| StoreLemmas.NotifyPassive | createStore.js:140-144 | with listeners that do nothing, each listener of the snapshot is called once, in order, and the store is unchanged |
| StoreLemmas.DispatchPassive | createStore.js:131-147 | with listeners that do nothing, `getState()` after dispatch is `currentReducer(oldState, action)`, the action is returned, and every listener of the snapshot was called |
| StoreLemmas.ReplaceReducerPassive | createStore.js:155-163 | `replaceReducer(f)` installs f, and the state becomes `f(oldState, { type: INIT })`; if f throws, the error escapes, the state is kept and f stays installed |
| StoreLemmas.ListenerCannotChangeSnapshot | createStore.js:140-144 | whatever operations a listener performs, the array being iterated keeps the contents it had when the snapshot was taken |
| StoreLemmas.SubscribeTakesEffectNextCycle | createStore.js:80-82 | a subscribe during notification leaves the array being iterated exactly as it was, and the new listener is at the end of the next dispatch's snapshot |
| StoreLemmas.CounterDispatchedTwice | createStore.js:203-206 | a counter store is seeded to 0 by the bootstrap INIT, and two `INC` dispatches leave `getState()` at 2 |
| CombineReducers.FinalReducersKeepOrder | combineReducers.js:98-116 | the kept entries are the input entries with the non-functions left out, in input key order |
| CombineReducers.FinalReducersComplete | combineReducers.js:102-114 | every function-valued entry is kept with its key and function, and no key appears that was not in the input |
| CombineReducers.FinalReducersDistinct | combineReducers.js:98-116 | the kept keys are distinct, as `Object.keys` keys are |
| CombineReducers.FinalReducers | combineReducers.js:98-116 | its own contract is only the length bound (no entry is added); the filtering is characterised by `CombineReducers.FinalReducersKeepOrder`, `CombineReducers.FinalReducersComplete` and `CombineReducers.FinalReducersDistinct` |
| CombineReducers.ShapeFailure | combineReducers.js:62-85 | a slice passes exactly when it returns a defined value for `(undefined, INIT)` and for `(undefined, probe)`; an undefined or thrown INIT result decides the failure before the probe is tried; whatever the reducer throws on either probe is the failure as it is |
| CombineReducers.AssertReducerShape | combineReducers.js:60-87 | no error exactly when every slice passes; otherwise the error is that of the first failing slice in key order |
| CombineReducers.CombineReducers | combineReducers.js:96-129 | no shape failure escapes, it is captured: the slices are the filtered entries, a shape error is captured exactly when some slice fails, and the captured error is the first failing slice's, in key order |
| CombineReducers.NameOf | combineReducers.js:6-8 | the undefined-slice error names `action.type` exactly when the action and its type are truthy, and "an action" otherwise |
| CombineReducers.DefaultState | combineReducers.js:132 | an undefined state becomes a new empty plain object, at the address the call allocates; any other state is used as given |
| CombineReducers.UnexpectedStateShapeWarning | combineReducers.js:18-57 | with no reducers the warning is "no valid reducer"; for a non-plain state it is "unexpected type"; otherwise it reports exactly the state keys that have no reducer, are not yet cached and are not inherited by `{}` from `Object.prototype` (the cache lookup finds those); the cache grows by exactly the reported keys |
| CombineReducers.SliceOutcome | combineReducers.js:152-163 | each slice reducer gets `state[key]` and the unchanged action; reading `state[key]` on a null state throws `TypeError`; a reducer's own throw escapes as it is; an undefined result becomes the error naming the key and the action; a defined result is passed through |
| CombineReducers.ReduceSlices | combineReducers.js:150-168 | the loop succeeds exactly when every slice does and otherwise stops at the first failure; on success the next state holds exactly the slice keys with their results, and `hasChanged` is true exactly when some slice result is not `===` its previous value |
| CombineReducers.ReduceStep | combineReducers.js:165-167 | one successful turn of the loop: after `nextState[key] = nextStateForKey`, the next state holds exactly the keys of this and the later slices with their results, and `hasChanged` is true exactly when one of those slice results is not `===` its previous value |
| CombineReducers.Combination | combineReducers.js:132-171 | a truthy captured shape error is rethrown with nothing else done; otherwise it succeeds exactly when every slice does, fails with the first failing slice's error, returns the input state itself when no slice changed, and returns a fresh plain object of exactly the slice keys when one did |
| CombineLemmas.ShapeErrorEveryCall | combineReducers.js:124-135 | once a shape error is captured, every call of every session throws that same error, with no warning and the cache untouched |
| CombineLemmas.Session | combineReducers.js:118-171 | successive calls to one `combination` closure, each starting from the cache the previous call left; its own contract is one result per call, and `CombineLemmas.ShapeErrorEveryCall`, `CombineLemmas.SessionReportsFresh` and `CombineLemmas.ReportedAtMostOnce` state its properties |
| CombineLemmas.SessionReportsFresh | combineReducers.js:40-47 | no call of a session reports a key that was already in the cache when the session began |
| CombineLemmas.ReportedAtMostOnce | combineReducers.js:118-121 | along one `combination` instance the cache only grows, and two different calls never report the same unexpected key |
| CombineLemmas.OutcomeIgnoresCache | combineReducers.js:137-143 | the warning and the cache never change what `combination` returns or throws |
| CombineLemmas.IdentityIffUnchanged | combineReducers.js:145-170 | for a defined state, the result is `===` the input state exactly when no slice changed, and in that case it is the input state itself, extra keys included |
| CombineLemmas.ChangedResultHasOnlyReducerKeys | combineReducers.js:148-170 | when some slice changed, the result is a plain object holding every reducer key and no key without a reducer |
| CombineLemmas.UndefinedSliceThrows | combineReducers.js:155-163 | if earlier slices succeed and slice j returns undefined, `combination` throws the error naming j's key and the action, whatever the later slices would do |
| CombineLemmas.FalsyShapeErrorNotRethrown | combineReducers.js:124-135 | a first reducer that throws `0` on its INIT probe gets `0` captured as the shape error, and because `0` is falsy every `combination` call runs the slices instead of rethrowing it |
| CombineLemmas.CountAndNamePassShape | combineReducers.js:60-87 | `combineReducers({ count, name })` keeps both reducers and captures no shape error, for any random probe text |
| CombineLemmas.CountAndNameFirstCall | combineReducers.js:132-171 | the first call of that combined reducer, with no state and `{ type: INIT }`, returns a new `{ count: 0, name: 'x' }` |

## Left out

- `applyMiddleware`: left out. It is closure wiring around `compose`, and `compose` is not part of this model.
- `bindActionCreators`: left out. It curries `dispatch` and holds no state.
- `observable()` and the `$$observable` interop (createStore.js:165-214): left out. They are an adapter over `subscribe`.
- `lodash/isPlainObject` is not part of this model. It is represented by the `plain` tag on object values.
- Object key order: state objects are finite maps, so the order of a result's keys is not modelled. The order in which slices run is modelled, as the order of `finalReducerKeys`.
- Property reads (`Js.Member`): only own data properties are seen. Prototype chains, getters, and indexing into strings or functions are not modelled. The one inherited lookup that changes a result, the unexpected-key cache read, is modelled through `Js.ObjectPrototypeKeys`. Property writes through the prototype are not modelled either. Assigning the key `"__proto__"` (`finalReducers[key] = reducers[key]` at combineReducers.js:112, `nextState[key] = nextStateForKey` at :165) sets the object's prototype instead of adding a key, so the source drops a reducer registered under an own `__proto__` key, which `CombineReducers.FinalReducersComplete` keeps.
- Numbers are unbounded integers: NaN, `-0` and floating point are not modelled.
- Error and warning message text is not modelled; only which error occurs and which key and action it names.
- `process.env.NODE_ENV`: only the development build is modelled, where the unexpected-key cache exists. The `warning()` output and the "No reducer provided" warning are left out, since they never change a result.
- `Math.random` in the probe type is the parameter `random`.
- Allocation of new objects: references come from explicit parameters and counters.
- The stack limit is the `depth` parameter.
- The enhancer's behaviour: `Store.CreateStore` returns `Delegated` with the arguments `enhancer(createStore)` would receive.
- Reducers are pure functions: a reducer that calls `getState`, `subscribe` or `dispatch` on its own store is not modelled. `StoreLemmas.ReducerCannotDispatch` states what such a `dispatch` would meet.
- Listeners get no arguments in the source. In the model, a `World` decides what a listener does from its identifier and the current state; `getState` is otherwise an operation without effect.
- Listener behaviour: a listener's whole list of operations is fixed from its identifier and the state when it is called, and the first operation that throws ends the listener. A listener that catches an error of a nested `dispatch` and carries on, one whose later operations depend on the results of earlier ones (such as `getState()` after its own `dispatch`), and one with private state of its own are not expressible. None of the stated properties depends on this restriction.
- Store.ReplaceReducer: its contract states the state after a successful replacement only when there are no listeners; `StoreLemmas.ReplaceReducerPassive` states it for listeners that do nothing. An arbitrary listener may itself dispatch or replace the reducer again.
- Store.Dispatch: with arbitrary listeners, the final state is whatever nested operations leave. The state right after the reducer call is stated by `Store.Commit`, and the end-to-end state by `StoreLemmas.DispatchPassive`.
- CombineReducers.Combination: a thrown shape error whose value is falsy (for example `throw 0`) is not rethrown, because of the `if (shapeAssertionError)` test. The model keeps that behaviour (`CombineLemmas.FalsyShapeErrorNotRethrown`).
- CombineReducers.UnexpectedStateShapeWarning: `reducers.hasOwnProperty(key)` is taken as membership in the reducer keys; a reducer registered under the key `hasOwnProperty` itself, which would shadow that method, is not modelled.
- CombineReducers.CombineReducers: the `reducers` argument is taken as the list of its `Object.keys` entries. A `null` or `undefined` argument, for which `Object.keys(reducers)` throws `TypeError` at combineReducers.js:98 before the `try`, is not modelled.
- In-place mutation of state objects is not modelled: objects are immutable values carrying an address, so a reducer that changes its slice object and returns the same address counts as unchanged, and `combination` returns the old fields. Reducers are pure, as the design requires.

=== FILE: action_types.dfy ===
/** The action types the library reserves for itself. */
module ActionTypes {
  import opened Js

  /** `ActionTypes.INIT`, dispatched when a store is built and whenever its reducer is replaced. */
  const INIT: string := "@@redux/INIT"

  /** Every probe type `assertReducerShape` makes starts with this prefix. */
  const PROBE_PREFIX: string := "@@redux/PROBE_UNKNOWN_ACTION_"

  /**
   The probe type made from the random text `noise` (the dotted base-36 digits
   of `Math.random()`). Whatever the noise, it is never the INIT type, so a
   reducer cannot pass the probe by special-casing INIT.
   */
  function ProbeType(noise: string): (t: string)
    ensures |PROBE_PREFIX| <= |t| && t[..|PROBE_PREFIX|] == PROBE_PREFIX
    ensures t != INIT
  {
    var t := PROBE_PREFIX + noise;
    assert t[8] == 'P' != INIT[8];
    t
  }

  /** The action `{ type: ActionTypes.INIT }` the library allocates at `ref`. */
  function InitAction(ref: Ref): (a: Value)
    ensures IsPlainObject(a) && Member(a, "type") == Normal(Str(INIT))
  {
    ActionObject(ref, INIT)
  }
}

=== FILE: combine_lemmas.dfy ===
/** Properties of `combination` over one call and over a sequence of calls to the same instance. */
module CombineLemmas {
  import opened Js
  import opened ActionTypes
  import opened CombineReducers
  import opened SampleReducers

  /** A captured shape error that `if (shapeAssertionError)` lets through. */
  predicate Broken(c: Combinator) {
    c.shapeError.Some? && ErrorTruthy(c.shapeError.value)
  }

  /** One call `combination(state, action)`, with the address its object literals get. */
  datatype Call = Call(state: Value, action: Value, alloc: Ref)

  /** Successive calls to one `combination` closure: the unexpected-key cache carries over. */
  function Session(c: Combinator, cache: set<string>, calls: seq<Call>): (rs: seq<Combined>)
    requires DistinctSlices(c.slices)
    ensures |rs| == |calls|
    decreases |calls|
  {
    if |calls| == 0 then []
    else
      var r := Combination(c, cache, calls[0].state, calls[0].action, calls[0].alloc);
      [r] + Session(c, r.cache, calls[1..])
  }

  /** A captured shape error is thrown again by every call of the session, before any slice runs. */
  lemma {:induction false} ShapeErrorEveryCall(c: Combinator, cache: set<string>, calls: seq<Call>)
    requires DistinctSlices(c.slices) && Broken(c)
    ensures forall i | 0 <= i < |calls| ::
              Session(c, cache, calls)[i] == Combined(Abrupt(c.shapeError.value), cache, None)
    decreases |calls|
  {
    if |calls| > 0 {
      ShapeErrorEveryCall(c, cache, calls[1..]);
    }
  }

  /** Nothing a session reports was in the cache it started from. */
  lemma {:induction false} SessionReportsFresh(c: Combinator, cache: set<string>, calls: seq<Call>)
    requires DistinctSlices(c.slices)
    ensures forall i | 0 <= i < |calls| ::
              Reported(Session(c, cache, calls)[i].warning) !! cache
              && cache <= Session(c, cache, calls)[i].cache
    decreases |calls|
  {
    if |calls| > 0 {
      var r := Combination(c, cache, calls[0].state, calls[0].action, calls[0].alloc);
      SessionReportsFresh(c, r.cache, calls[1..]);
    }
  }

  /** No two calls report the same key, and the cache only grows from call to call. */
  predicate ReportsDisjoint(rs: seq<Combined>) {
    forall i, j | 0 <= i < j < |rs| ::
      Reported(rs[i].warning) !! Reported(rs[j].warning) && rs[i].cache <= rs[j].cache
  }

  /**
   Per `combination` instance, the cache only grows, and an unexpected key is
   reported by at most one call.
   */
  lemma {:induction false} ReportedAtMostOnce(c: Combinator, cache: set<string>, calls: seq<Call>)
    requires DistinctSlices(c.slices)
    ensures ReportsDisjoint(Session(c, cache, calls))
    decreases |calls|
  {
    if |calls| > 0 {
      var r := Combination(c, cache, calls[0].state, calls[0].action, calls[0].alloc);
      var tail := Session(c, r.cache, calls[1..]);
      assert Session(c, cache, calls) == [r] + tail;
      ReportedAtMostOnce(c, r.cache, calls[1..]);
      SessionReportsFresh(c, r.cache, calls[1..]);
      ReportedDisjointCons(r, tail);
    }
  }

  /**
   The step of `ReportedAtMostOnce`: a call whose cache holds what it reported,
   followed by calls that report nothing from that cache and only grow it,
   keeps the reports pairwise disjoint.
   */
  lemma ReportedDisjointCons(r: Combined, tail: seq<Combined>)
    requires Reported(r.warning) <= r.cache
    requires forall i | 0 <= i < |tail| :: Reported(tail[i].warning) !! r.cache && r.cache <= tail[i].cache
    requires ReportsDisjoint(tail)
    ensures ReportsDisjoint([r] + tail)
  {
    var rs := [r] + tail;
    forall i, j | 0 <= i < j < |rs|
      ensures Reported(rs[i].warning) !! Reported(rs[j].warning) && rs[i].cache <= rs[j].cache
    {
      assert rs[j] == tail[j - 1];
      if i > 0 {
        assert rs[i] == tail[i - 1];
      }
    }
  }

  /** The cache and the warnings never change what `combination` returns or throws. */
  lemma OutcomeIgnoresCache(c: Combinator, cache1: set<string>, cache2: set<string>, state: Value, action: Value, alloc: Ref)
    requires DistinctSlices(c.slices)
    ensures Combination(c, cache1, state, action, alloc).result == Combination(c, cache2, state, action, alloc).result
  {
  }

  /**
   Change detection: a defined input state comes back as the very same
   object exactly when every slice's new value is `===` its old one.
   */
  lemma IdentityIffUnchanged(c: Combinator, cache: set<string>, state: Value, action: Value, alloc: Ref)
    requires DistinctSlices(c.slices) && !Broken(c)
    requires !state.Undefined? && !(state.Obj? && state.ref == alloc + 1)
    requires Combination(c, cache, state, action, alloc).result.Normal?
    ensures var r := Combination(c, cache, state, action, alloc).result.value;
            && (Identical(r, state) <==> forall j | 0 <= j < |c.slices| :: !SliceChanged(c.slices[j], state, action))
            && ((forall j | 0 <= j < |c.slices| :: !SliceChanged(c.slices[j], state, action)) ==> r == state)
  {
    var r := Combination(c, cache, state, action, alloc).result.value;
    if forall j | 0 <= j < |c.slices| :: !SliceChanged(c.slices[j], state, action) {
      assert r == state;
    } else {
      assert r.Obj? && r.ref == alloc + 1;
    }
  }

  /**
   When some slice changed, the result holds exactly the reducer keys, each
   with its slice's new value; keys of the state that have no reducer are dropped.
   */
  lemma ChangedResultHasOnlyReducerKeys(c: Combinator, cache: set<string>, state: Value, action: Value, alloc: Ref, k: string)
    requires DistinctSlices(c.slices) && !Broken(c) && k !in Keys(c.slices)
    ensures var r := Combination(c, cache, state, action, alloc).result;
            (r.Normal? && exists j | 0 <= j < |c.slices| :: SliceChanged(c.slices[j], DefaultState(state, alloc), action))
            ==> && IsPlainObject(r.value) && k !in r.value.fields
                && forall j | 0 <= j < |c.slices| :: c.slices[j].key in r.value.fields
  {
  }

  /**
   A slice reducer that returns `undefined`, after every earlier slice
   succeeded, makes `combination` throw the error naming that slice's key
   and the action; later slices do not decide anything.
   */
  lemma UndefinedSliceThrows(c: Combinator, cache: set<string>, state: Value, action: Value, alloc: Ref, j: nat)
    requires DistinctSlices(c.slices) && !Broken(c) && j < |c.slices|
    requires var s := DefaultState(state, alloc);
             && (forall k | 0 <= k < j :: SliceOutcome(c.slices[k], s, action).Normal?)
             && Member(s, c.slices[j].key).Normal?
             && c.slices[j].reducer(Member(s, c.slices[j].key).value, action) == Normal(Undefined)
    ensures Combination(c, cache, state, action, alloc).result == Abrupt(UndefinedSliceState(c.slices[j].key, NameOf(action)))
  {
    var s := DefaultState(state, alloc);
    var r := Combination(c, cache, state, action, alloc).result;
    assert SliceOutcome(c.slices[j], s, action).Abrupt?;
    var j' :| 0 <= j' < |c.slices|
              && SliceOutcome(c.slices[j'], s, action) == Abrupt(r.error)
              && forall k | 0 <= k < j' :: SliceOutcome(c.slices[k], s, action).Normal?;
    assert j' == j;
  }

  /**
   A first reducer that throws `0` on its INIT probe: `catch (e)` captures the
   `0` as the shape error, but `if (shapeAssertionError)` finds it falsy, so
   every `combination` call goes on to run the slices instead of rethrowing.
   */
  lemma FalsyShapeErrorNotRethrown(entries: seq<Entry>, random: nat -> string, alloc: Ref,
                                   cache: set<string>, state: Value, action: Value, at: Ref)
    requires DistinctKeys(entries) && |FinalReducers(entries)| > 0
    requires FinalReducers(entries)[0].reducer(Undefined, InitProbe(0, alloc)) == Abrupt(Thrown(Num(0)))
    ensures var c := CombineReducers.CombineReducers(entries, random, alloc);
            && c.shapeError == Some(Thrown(Num(0)))
            && !Broken(c)
            && (Combination(c, cache, state, action, at).result.Normal? <==>
                  forall j | 0 <= j < |c.slices| :: SliceOutcome(c.slices[j], DefaultState(state, at), action).Normal?)
  {
    var c := CombineReducers.CombineReducers(entries, random, alloc);
    assert ShapeFailure(c.slices[0], 0, random, alloc) == Some(Thrown(Num(0)));
    var j :| 0 <= j < |c.slices|
             && c.shapeError == ShapeFailure(c.slices[j], j, random, alloc)
             && forall k | 0 <= k < j :: ShapeFailure(c.slices[k], k, random, alloc).None?;
    assert j == 0;
  }

  /** The entries `{ count, name }`, both functions. */
  function CountAndName(): seq<Entry> {
    [Entry("count", Function(Counter)), Entry("name", Function(Name))]
  }

  /** Both slices of `{ count, name }` pass the shape check, whatever the probe's random text. */
  lemma CountAndNamePassShape(random: nat -> string, alloc: Ref)
    ensures var c := CombineReducers.CombineReducers(CountAndName(), random, alloc);
            c.slices == [Slice("count", Counter), Slice("name", Name)] && c.shapeError.None?
  {
    var slices := [Slice("count", Counter), Slice("name", Name)];
    assert FinalReducers(CountAndName()[1..]) == slices[1..];
    assert FinalReducers(CountAndName()) == slices;
    assert ShapeFailure(slices[0], 0, random, alloc).None?;
    assert ShapeFailure(slices[1], 1, random, alloc).None?;
  }

  /** The slice outcomes of `{ count, name }` for an undefined state. */
  lemma CountAndNameSlices(s: Value, init: Value)
    requires IsPlainObject(s) && s.fields == map[] && Member(init, "type") == Normal(Str(INIT))
    ensures ReduceSlices([Slice("count", Counter), Slice("name", Name)], s, init, 0)
            == Normal(NextState(map["name" := Str("x"), "count" := Num(0)], true))
  {
    var slices := [Slice("count", Counter), Slice("name", Name)];
    assert SliceOutcome(slices[0], s, init) == Normal(Num(0));
    assert SliceOutcome(slices[1], s, init) == Normal(Str("x"));
    assert ReduceSlices(slices, s, init, 2) == Normal(NextState(map[], false));
    assert ReduceSlices(slices, s, init, 1) == Normal(NextState(map["name" := Str("x")], true));
  }

  /**
   The first call of the combined `{ count, name }` reducer (which passed its
   shape check), with no state and `{ type: INIT }`, gives a new
   `{ count: 0, name: 'x' }`.
   */
  lemma CountAndNameFirstCall(action: Ref, alloc: Ref)
    ensures var c := Combinator([Slice("count", Counter), Slice("name", Name)], None);
            var r := Combination(c, {}, Undefined, InitAction(action), alloc).result;
            && r.Normal? && IsPlainObject(r.value) && r.value.ref == alloc + 1
            && r.value.fields == map["count" := Num(0), "name" := Str("x")]
  {
    var s := DefaultState(Undefined, alloc);
    CountAndNameSlices(s, InitAction(action));
    assert map["name" := Str("x"), "count" := Num(0)] == map["count" := Num(0), "name" := Str("x")];
  }
}

=== FILE: combine_reducers.dfy ===
/**
 `combineReducers(reducers)`: build time keeps the function-valued entries
 and probes each of them, capturing (not throwing) the first failure; the
 returned `combination` reducer hands the action to every slice in key order
 and returns the very state it was given when no slice changed.
 */
module CombineReducers {
  import opened Js
  import opened ActionTypes

  /** One own property of the `reducers` argument, in `Object.keys` order. */
  datatype Entry = Entry(key: string, value: Callable<Reducer>)

  /** One entry of `finalReducers`: a key whose value is a function. */
  datatype Slice = Slice(key: string, reducer: Reducer)

  /** What `combineReducers` closes over: the kept slices and the captured shape error. */
  datatype Combinator = Combinator(slices: seq<Slice>, shapeError: Option<Error>)

  /** The shape of the next state `combination` has built: its properties, and `hasChanged`. */
  datatype NextState = NextState(fields: map<string, Value>, hasChanged: bool)

  /** Which argument the shape warning blames. */
  datatype ArgumentName = PreloadedStateArgument | PreviousStateReceived

  /** The diagnostics of `getUnexpectedStateShapeWarningMessage`, without their text. */
  datatype Warning =
    | NoValidReducer
    | UnexpectedType(argument: ArgumentName)
    | UnexpectedKeys(keys: set<string>, argument: ArgumentName)

  /** The result of one `combination` call, with the unexpected-key cache after it. */
  datatype Combined = Combined(result: Completion<Value>, cache: set<string>, warning: Option<Warning>)

  predicate DistinctKeys(entries: seq<Entry>) {
    forall i, j | 0 <= i < j < |entries| :: entries[i].key != entries[j].key
  }

  predicate DistinctSlices(slices: seq<Slice>) {
    forall i, j | 0 <= i < j < |slices| :: slices[i].key != slices[j].key
  }

  /** `finalReducerKeys`. */
  function Keys(slices: seq<Slice>): (keys: seq<string>)
    ensures |keys| == |slices|
    ensures forall i | 0 <= i < |slices| :: keys[i] == slices[i].key
  {
    seq(|slices|, i requires 0 <= i < |slices| => slices[i].key)
  }

  /** The entries `slices` came from. */
  function AsEntries(slices: seq<Slice>): (entries: seq<Entry>)
    ensures |entries| == |slices|
    ensures forall i | 0 <= i < |slices| :: entries[i] == Entry(slices[i].key, Function(slices[i].reducer))
  {
    seq(|slices|, i requires 0 <= i < |slices| => Entry(slices[i].key, Function(slices[i].reducer)))
  }

  /** `a` is `b` with some elements left out, the rest in their order. */
  ghost predicate Subsequence<T>(a: seq<T>, b: seq<T>)
    decreases |b|
  {
    |a| == 0 || (|b| > 0 && ((a[0] == b[0] && Subsequence(a[1..], b[1..])) || Subsequence(a, b[1..])))
  }

  /** `finalReducers`: the entries whose value is a function, in input order. */
  function FinalReducers(entries: seq<Entry>): (slices: seq<Slice>)
    ensures |slices| <= |entries|
  {
    if |entries| == 0 then []
    else
      match entries[0].value
      case Function(f) => [Slice(entries[0].key, f)] + FinalReducers(entries[1..])
      case NotFunction(_) => FinalReducers(entries[1..])
  }

  /** The kept entries are the input's function entries with the others left out, order unchanged. */
  lemma {:induction false} FinalReducersKeepOrder(entries: seq<Entry>)
    ensures Subsequence(AsEntries(FinalReducers(entries)), entries)
  {
    if |entries| > 0 {
      var rest := FinalReducers(entries[1..]);
      FinalReducersKeepOrder(entries[1..]);
      if entries[0].value.Function? {
        var slices := FinalReducers(entries);
        assert slices == [Slice(entries[0].key, entries[0].value.f)] + rest;
        assert AsEntries(slices)[1..] == AsEntries(rest);
      }
    }
  }

  /** Every function entry is kept, with its key and its function; nothing with another key appears. */
  lemma {:induction false} FinalReducersComplete(entries: seq<Entry>)
    ensures forall i | 0 <= i < |entries| && entries[i].value.Function? ::
              Slice(entries[i].key, entries[i].value.f) in FinalReducers(entries)
    ensures forall s | s in FinalReducers(entries) :: exists i | 0 <= i < |entries| :: entries[i].key == s.key
  {
    if |entries| > 0 {
      FinalReducersComplete(entries[1..]);
      assert forall i | 1 <= i < |entries| :: entries[i] == entries[1..][i - 1];
      forall s | s in FinalReducers(entries)
        ensures exists i | 0 <= i < |entries| :: entries[i].key == s.key
      {
        if s !in FinalReducers(entries[1..]) {
          assert entries[0].key == s.key;
        } else {
          var i :| 0 <= i < |entries[1..]| && entries[1..][i].key == s.key;
          assert entries[i + 1].key == s.key;
        }
      }
    }
  }

  /** Distinct input keys give distinct slice keys. */
  lemma {:induction false} FinalReducersDistinct(entries: seq<Entry>)
    requires DistinctKeys(entries)
    ensures DistinctSlices(FinalReducers(entries))
  {
    if |entries| > 0 {
      var rest := FinalReducers(entries[1..]);
      FinalReducersDistinct(entries[1..]);
      FinalReducersComplete(entries[1..]);
      if entries[0].value.Function? {
        var slices := FinalReducers(entries);
        assert slices == [Slice(entries[0].key, entries[0].value.f)] + rest;
        forall j | 0 < j < |slices|
          ensures slices[0].key != slices[j].key
        {
          assert slices[j] in rest;
          var i :| 0 <= i < |entries[1..]| && entries[1..][i].key == slices[j].key;
          assert entries[i + 1].key == slices[j].key;
        }
      }
    }
  }

  /** A call returned a value other than `undefined`. */
  predicate Defined(c: Completion<Value>) {
    c.Normal? && !c.value.Undefined?
  }

  /** The action `{ type: INIT }` that probes slice `j`. */
  function InitProbe(j: nat, alloc: Ref): Value {
    ActionObject(alloc + 2 * j, INIT)
  }

  /** The action `{ type: '@@redux/PROBE_UNKNOWN_ACTION_…' }` that probes slice `j`. */
  function UnknownProbe(j: nat, random: nat -> string, alloc: Ref): Value {
    ActionObject(alloc + 2 * j + 1, ProbeType(random(j)))
  }

  /**
   The check `assertReducerShape` makes of slice `j`: an error the reducer
   throws is captured as it is; an `undefined` result is reported for the
   INIT probe before the unknown-type probe is tried.
   */
  function ShapeFailure(s: Slice, j: nat, random: nat -> string, alloc: Ref): (r: Option<Error>)
    ensures r.None? <==>
              Defined(s.reducer(Undefined, InitProbe(j, alloc)))
              && Defined(s.reducer(Undefined, UnknownProbe(j, random, alloc)))
    ensures s.reducer(Undefined, InitProbe(j, alloc)) == Normal(Undefined) ==> r == Some(ShapeInitUndefined(s.key))
    ensures Defined(s.reducer(Undefined, InitProbe(j, alloc)))
            && s.reducer(Undefined, UnknownProbe(j, random, alloc)) == Normal(Undefined)
            ==> r == Some(ShapeProbeUndefined(s.key))
    ensures s.reducer(Undefined, InitProbe(j, alloc)).Abrupt? ==>
              r == Some(s.reducer(Undefined, InitProbe(j, alloc)).error)
    ensures Defined(s.reducer(Undefined, InitProbe(j, alloc)))
            && s.reducer(Undefined, UnknownProbe(j, random, alloc)).Abrupt?
            ==> r == Some(s.reducer(Undefined, UnknownProbe(j, random, alloc)).error)
  {
    match s.reducer(Undefined, InitProbe(j, alloc))
    case Abrupt(e) => Some(e)
    case Normal(initial) =>
      if initial.Undefined? then Some(ShapeInitUndefined(s.key))
      else
        match s.reducer(Undefined, UnknownProbe(j, random, alloc))
        case Abrupt(e) => Some(e)
        case Normal(probed) => if probed.Undefined? then Some(ShapeProbeUndefined(s.key)) else None
  }

  /**
   `assertReducerShape(finalReducers)` from slice `i` on: the first slice that
   fails its check decides the error, and no error means every slice passed.
   */
  function AssertReducerShape(slices: seq<Slice>, i: nat, random: nat -> string, alloc: Ref): (r: Option<Error>)
    requires i <= |slices|
    ensures r.None? <==> forall j | i <= j < |slices| :: ShapeFailure(slices[j], j, random, alloc).None?
    ensures r.Some? ==>
              exists j | i <= j < |slices| ::
                && r == ShapeFailure(slices[j], j, random, alloc)
                && forall k | i <= k < j :: ShapeFailure(slices[k], k, random, alloc).None?
    decreases |slices| - i
  {
    if i == |slices| then None
    else
      var failure := ShapeFailure(slices[i], i, random, alloc);
      if failure.Some? then failure else AssertReducerShape(slices, i + 1, random, alloc)
  }

  /**
   `combineReducers(reducers)`. A shape failure never escapes: it is kept
   for `combination` to rethrow. `random(j)` stands for the `Math.random`
   text of slice `j`'s probe, and the probe actions are allocated from `alloc`.
   */
  function CombineReducers(entries: seq<Entry>, random: nat -> string, alloc: Ref): (c: Combinator)
    requires DistinctKeys(entries)
    ensures c.slices == FinalReducers(entries) && DistinctSlices(c.slices)
    ensures c.shapeError.None? <==>
              forall j | 0 <= j < |c.slices| :: ShapeFailure(c.slices[j], j, random, alloc).None?
    ensures c.shapeError.Some? ==>
              exists j | 0 <= j < |c.slices| ::
                && c.shapeError == ShapeFailure(c.slices[j], j, random, alloc)
                && forall k | 0 <= k < j :: ShapeFailure(c.slices[k], k, random, alloc).None?
    ensures c.shapeError == AssertReducerShape(c.slices, 0, random, alloc)
  {
    var slices := FinalReducers(entries);
    FinalReducersDistinct(entries);
    Combinator(slices, AssertReducerShape(slices, 0, random, alloc))
  }

  /**
   How `getUndefinedStateErrorMessage` names the action: `action && action.type`
   when that is truthy, and "an action" otherwise.
   */
  function NameOf(action: Value): (n: ActionName)
    ensures n.Named? <==> Truthy(action) && Truthy(Member(action, "type").value)
    ensures n.Named? ==> n.actionType == Member(action, "type").value
  {
    var actionType := if Truthy(action) then Member(action, "type").value else action;
    if Truthy(actionType) then Named(actionType) else AnAction
  }

  /** The state `combination` works on: `state = {}` when undefined, that `{}` allocated at `alloc`. */
  function DefaultState(state: Value, alloc: Ref): (s: Value)
    ensures !state.Undefined? ==> s == state
    ensures state.Undefined? ==> IsPlainObject(s) && s.fields == map[] && s.ref == alloc
  {
    if state.Undefined? then Obj(alloc, true, map[]) else state
  }

  /** The keys a warning reports as unexpected, if any. */
  function Reported(w: Option<Warning>): set<string> {
    if w.Some? && w.value.UnexpectedKeys? then w.value.keys else {}
  }

  /**
   `getUnexpectedStateShapeWarningMessage`: which diagnostic, if any, the call
   produces, and the cache afterwards. Only keys not yet in the cache are
   reported, and each reported key is added to it. The cache is an object
   literal, so a key it inherits from `Object.prototype` reads as cached and
   is never reported.
   */
  function UnexpectedStateShapeWarning(inputState: Value, reducerKeys: seq<string>, action: Value, cache: set<string>)
    : (r: (Option<Warning>, set<string>))
    ensures r.1 == cache + Reported(r.0)
    ensures Reported(r.0) !! cache
    ensures |reducerKeys| == 0 ==> r.0 == Some(NoValidReducer)
    ensures |reducerKeys| > 0 && !IsPlainObject(inputState) ==> r.0.Some? && r.0.value.UnexpectedType?
    ensures |reducerKeys| > 0 && IsPlainObject(inputState) ==>
              Reported(r.0) == set k | k in inputState.fields && k !in reducerKeys && k !in cache && k !in ObjectPrototypeKeys
  {
    var argumentName :=
      if Truthy(action) && Identical(Member(action, "type").value, Str(INIT)) then PreloadedStateArgument
      else PreviousStateReceived;
    if |reducerKeys| == 0 then (Some(NoValidReducer), cache)
    else if !IsPlainObject(inputState) then (Some(UnexpectedType(argumentName)), cache)
    else
      // `unexpectedKeyCache[key]` also finds what `{}` inherits from `Object.prototype`.
      var unexpected := set k | k in inputState.fields && k !in reducerKeys && k !in cache && k !in ObjectPrototypeKeys;
      (if unexpected == {} then None else Some(UnexpectedKeys(unexpected, argumentName)), cache + unexpected)
  }

  /**
   One slice's turn in `combination`: read `state[key]`, call the slice
   reducer with it and the unchanged action, and fail on `undefined`.
   */
  function SliceOutcome(slice: Slice, s: Value, action: Value): (r: Completion<Value>)
    ensures r.Normal? ==> !r.value.Undefined? && Member(s, slice.key).Normal?
    ensures (Member(s, slice.key).Normal? && slice.reducer(Member(s, slice.key).value, action) == Normal(Undefined))
              ==> r == Abrupt(UndefinedSliceState(slice.key, NameOf(action)))
    ensures (Member(s, slice.key).Normal? && Defined(slice.reducer(Member(s, slice.key).value, action)))
              ==> r == slice.reducer(Member(s, slice.key).value, action)
    ensures (Member(s, slice.key).Normal? && slice.reducer(Member(s, slice.key).value, action).Abrupt?)
              ==> r == slice.reducer(Member(s, slice.key).value, action)
    ensures (s.Undefined? || s.Null?) ==> r == Abrupt(TypeError)
  {
    match Member(s, slice.key)
    case Abrupt(e) => Abrupt(e)
    case Normal(previous) =>
      match slice.reducer(previous, action)
      case Abrupt(e) => Abrupt(e)
      case Normal(next) =>
        if next.Undefined? then Abrupt(UndefinedSliceState(slice.key, NameOf(action))) else Normal(next)
  }

  /** Slice `slice`'s new value is not `===` its previous one. */
  predicate SliceChanged(slice: Slice, s: Value, action: Value) {
    SliceOutcome(slice, s, action).Normal? && !Identical(SliceOutcome(slice, s, action).value, Member(s, slice.key).value)
  }

  /** The keys of slices `i..` are slice `i`'s key and those of slices `i + 1..`. */
  lemma KeysFromStep(slices: seq<Slice>, i: nat)
    requires i < |slices|
    ensures (set j | i <= j < |slices| :: slices[j].key)
            == {slices[i].key} + (set j | i + 1 <= j < |slices| :: slices[j].key)
  {
    var rest := set j | i + 1 <= j < |slices| :: slices[j].key;
    forall k | k in (set j | i <= j < |slices| :: slices[j].key)
      ensures k in {slices[i].key} + rest
    {
      var j :| i <= j < |slices| && slices[j].key == k;
      if j > i {
        assert slices[j].key in rest;
      }
    }
  }

  /**
   One turn of the loop of `combination`: slice `i` succeeded with `next`, and
   `rest` is the next state of slices `i + 1..`; writing `nextState[key]` gives
   the next state of slices `i..`.
   */
  lemma ReduceStep(slices: seq<Slice>, s: Value, action: Value, i: nat, next: Value, rest: NextState)
    requires DistinctSlices(slices) && i < |slices|
    requires SliceOutcome(slices[i], s, action) == Normal(next)
    requires forall j | i + 1 <= j < |slices| :: SliceOutcome(slices[j], s, action).Normal?
    requires rest.fields.Keys == (set j | i + 1 <= j < |slices| :: slices[j].key)
    requires forall j | i + 1 <= j < |slices| :: rest.fields[slices[j].key] == SliceOutcome(slices[j], s, action).value
    requires rest.hasChanged <==> exists j | i + 1 <= j < |slices| :: SliceChanged(slices[j], s, action)
    ensures var r := NextState(rest.fields[slices[i].key := next],
                               rest.hasChanged || !Identical(next, Member(s, slices[i].key).value));
            && r.fields.Keys == (set j | i <= j < |slices| :: slices[j].key)
            && (forall j | i <= j < |slices| :: r.fields[slices[j].key] == SliceOutcome(slices[j], s, action).value)
            && (r.hasChanged <==> exists j | i <= j < |slices| :: SliceChanged(slices[j], s, action))
  {
    KeysFromStep(slices, i);
    var fields := rest.fields[slices[i].key := next];
    forall j | i <= j < |slices|
      ensures fields[slices[j].key] == SliceOutcome(slices[j], s, action).value
    {
      if j > i {
        assert slices[j].key != slices[i].key;
      }
    }
  }

  /**
   The loop of `combination` from slice `i` on. It stops at the first slice
   that fails; otherwise the next state holds exactly the remaining keys, each
   with its slice's result, and `hasChanged` says whether any was not `===`.
   */
  function ReduceSlices(slices: seq<Slice>, s: Value, action: Value, i: nat): (r: Completion<NextState>)
    requires DistinctSlices(slices) && i <= |slices|
    ensures r.Normal? <==> forall j | i <= j < |slices| :: SliceOutcome(slices[j], s, action).Normal?
    ensures r.Abrupt? ==>
              exists j | i <= j < |slices| ::
                && SliceOutcome(slices[j], s, action) == Abrupt(r.error)
                && forall k | i <= k < j :: SliceOutcome(slices[k], s, action).Normal?
    ensures r.Normal? ==>
              && r.value.fields.Keys == (set j | i <= j < |slices| :: slices[j].key)
              && (forall j | i <= j < |slices| :: r.value.fields[slices[j].key] == SliceOutcome(slices[j], s, action).value)
              && (r.value.hasChanged <==> exists j | i <= j < |slices| :: SliceChanged(slices[j], s, action))
    decreases |slices| - i
  {
    if i == |slices| then Normal(NextState(map[], false))
    else
      var slice := slices[i];
      match SliceOutcome(slice, s, action)
      case Abrupt(e) => Abrupt(e)
      case Normal(next) =>
        match ReduceSlices(slices, s, action, i + 1)
        case Abrupt(e) => Abrupt(e)
        case Normal(rest) =>
          var previous := Member(s, slice.key).value;
          ReduceStep(slices, s, action, i, next, rest);
          Normal(NextState(rest.fields[slice.key := next], rest.hasChanged || !Identical(next, previous)))
  }

  /**
   `combination(state, action)`: rethrow a captured shape error; otherwise
   default the state, run the shape warning, reduce every slice, and return
   the state itself when nothing changed or a new plain object (at `alloc + 1`)
   holding only the slice keys when something did.
   */
  function Combination(c: Combinator, cache: set<string>, state: Value, action: Value, alloc: Ref): (r: Combined)
    requires DistinctSlices(c.slices)
    ensures r.cache == cache + Reported(r.warning) && Reported(r.warning) !! cache
    ensures c.shapeError.Some? && ErrorTruthy(c.shapeError.value) ==>
              r == Combined(Abrupt(c.shapeError.value), cache, None)
    ensures !(c.shapeError.Some? && ErrorTruthy(c.shapeError.value)) ==>
              var s := DefaultState(state, alloc);
              && (r.result.Normal? <==> forall j | 0 <= j < |c.slices| :: SliceOutcome(c.slices[j], s, action).Normal?)
              && (r.result.Abrupt? ==>
                    exists j | 0 <= j < |c.slices| ::
                      && SliceOutcome(c.slices[j], s, action) == Abrupt(r.result.error)
                      && forall k | 0 <= k < j :: SliceOutcome(c.slices[k], s, action).Normal?)
              && ((r.result.Normal? && forall j | 0 <= j < |c.slices| :: !SliceChanged(c.slices[j], s, action))
                    ==> r.result.value == s)
              && ((r.result.Normal? && exists j | 0 <= j < |c.slices| :: SliceChanged(c.slices[j], s, action))
                    ==> && r.result.value.Obj? && r.result.value.ref == alloc + 1 && r.result.value.plain
                        && r.result.value.fields.Keys == (set j | 0 <= j < |c.slices| :: c.slices[j].key)
                        && forall j | 0 <= j < |c.slices| ::
                             r.result.value.fields[c.slices[j].key] == SliceOutcome(c.slices[j], s, action).value)
  {
    if c.shapeError.Some? && ErrorTruthy(c.shapeError.value) then
      Combined(Abrupt(c.shapeError.value), cache, None)
    else
      var s := DefaultState(state, alloc);
      var (warning, cache') := UnexpectedStateShapeWarning(s, Keys(c.slices), action, cache);
      match ReduceSlices(c.slices, s, action, 0)
      case Abrupt(e) => Combined(Abrupt(e), cache', warning)
      case Normal(next) =>
        Combined(Normal(if next.hasChanged then Obj(alloc + 1, true, next.fields) else s), cache', warning)
  }
}

=== FILE: js.dfy ===
/**
 The slice of JavaScript semantics the store and the reducer combinator rely on:
 values with reference identity, `===`, truthiness, `typeof` tests, property
 reads, and the completion (normal return or thrown error) of a call.
 */
module Js {

  /** An address in the heap; objects and functions are compared by it. */
  type Ref = nat

  datatype Option<+T> = None | Some(value: T)

  /**
   A JavaScript value. Objects carry their address, whether they are plain
   (what `lodash/isPlainObject` accepts) and their own enumerable properties.
   A `Func` is a function value whose behaviour the model does not need.
   */
  datatype Value =
    | Undefined
    | Null
    | Bool(b: bool)
    | Num(n: int)
    | Str(s: string)
    | Func(ref: Ref)
    | Obj(ref: Ref, plain: bool, fields: map<string, Value>)

  /** A value for which `typeof v !== 'function'`. */
  type NonFunction = v: Value | !v.Func? witness Undefined

  /** A call argument that is either a function with known behaviour or any other value. */
  datatype Callable<+F> = Function(f: F) | NotFunction(v: NonFunction)

  /** JavaScript's `!!v`. */
  predicate Truthy(v: Value) {
    match v
    case Undefined => false
    case Null => false
    case Bool(b) => b
    case Num(n) => n != 0
    case Str(s) => s != ""
    case Func(_) => true
    case Obj(_, _, _) => true
  }

  /** JavaScript's `a === b`: objects and functions by reference, the rest by value. */
  predicate Identical(a: Value, b: Value) {
    match (a, b)
    case (Func(r1), Func(r2)) => r1 == r2
    case (Obj(r1, _, _), Obj(r2, _, _)) => r1 == r2
    case _ => a == b
  }

  /**
   The properties every `{}` inherits from `Object.prototype`. Reading one of
   them from an empty object literal gives a function or an object, which is
   truthy.
   */
  const ObjectPrototypeKeys: set<string> := {
    "constructor", "hasOwnProperty", "isPrototypeOf", "propertyIsEnumerable",
    "toLocaleString", "toString", "valueOf", "__proto__",
    "__defineGetter__", "__defineSetter__", "__lookupGetter__", "__lookupSetter__"
  }

  /** `isPlainObject(v)` from lodash, taken as the `plain` tag of an object. */
  predicate IsPlainObject(v: Value) {
    v.Obj? && v.plain
  }

  /** The object literal `{ type: t }` at address `ref`. */
  function ActionObject(ref: Ref, t: string): (a: Value)
    ensures IsPlainObject(a) && "type" in a.fields && a.fields["type"] == Str(t)
  {
    Obj(ref, true, map["type" := Str(t)])
  }

  /** Why a call did not return normally. */
  datatype Error =
    | EnhancerNotFunction        // 'Expected the enhancer to be a function.'
    | ReducerNotFunction         // 'Expected the reducer to be a function.'
    | ListenerNotFunction        // 'Expected listener to be a function.'
    | NextReducerNotFunction     // 'Expected the nextReducer to be a function.'
    | ActionNotPlainObject       // 'Actions must be plain objects. ...'
    | ActionTypeUndefined        // 'Actions may not have an undefined "type" property. ...'
    | ReducersMayNotDispatch     // 'Reducers may not dispatch actions.'
    | ShapeInitUndefined(key: string)    // a slice reducer returned undefined for INIT
    | ShapeProbeUndefined(key: string)   // ... or for a random probe type
    | UndefinedSliceState(key: string, action: ActionName)
    | TypeError                  // reading a property of null, calling a non-function
    | RangeError                 // the engine's call stack is exhausted
    | Thrown(value: Value)       // a value thrown by application code

  /** How the undefined-slice error names the action: its type, or "an action". */
  datatype ActionName = Named(actionType: Value) | AnAction

  /**
   Whether a caught error `e` passes `if (e)`. Every error the library builds
   is an `Error` object and so truthy; application code may throw anything.
   */
  predicate ErrorTruthy(e: Error) {
    !e.Thrown? || Truthy(e.value)
  }

  /** The completion of a call: a returned value or a thrown error. */
  datatype Completion<+T> = Normal(value: T) | Abrupt(error: Error)

  /** A reducer `(state, action) => nextState`, which may throw. */
  type Reducer = (Value, Value) -> Completion<Value>

  /** The property read `v[key]`: own properties of objects, a `TypeError` on null and undefined. */
  function Member(v: Value, key: string): (r: Completion<Value>)
    ensures r.Abrupt? <==> v.Undefined? || v.Null?
    ensures r.Abrupt? ==> r.error == TypeError
    ensures v.Obj? ==> r == Normal(if key in v.fields then v.fields[key] else Undefined)
  {
    match v
    case Undefined => Abrupt(TypeError)
    case Null => Abrupt(TypeError)
    case Obj(_, _, fields) => Normal(if key in fields then fields[key] else Undefined)
    case _ => Normal(Undefined)
  }
}

=== FILE: js_array.dfy ===
/** The two `Array.prototype` methods the listener bookkeeping uses. */
module JsArray {

  /** `s.indexOf(x)`: the first position holding `x`, or -1 when there is none. */
  function IndexOf<T(==)>(s: seq<T>, x: T): (i: int)
    ensures -1 <= i < |s|
    ensures i == -1 <==> x !in s
    ensures 0 <= i ==> s[i] == x && forall j | 0 <= j < i :: s[j] != x
  {
    if |s| == 0 then -1
    else if s[0] == x then 0
    else
      var j := IndexOf(s[1..], x);
      if j == -1 then -1 else j + 1
  }

  /**
   `s.splice(start, 1)` on an array holding `s`, returning the array's new
   contents. A negative `start` counts from the end, as in JavaScript, so
   `splice(-1, 1)` removes the LAST element.
   */
  function Splice1<T>(s: seq<T>, start: int): (r: seq<T>)
    ensures 0 <= start < |s| ==> r == s[..start] + s[start + 1..]
    ensures start == -1 && |s| > 0 ==> r == s[..|s| - 1]
    ensures start >= |s| ==> r == s
    ensures |r| == if start < |s| && |s| > 0 then |s| - 1 else |s|
  {
    var k := if start < 0 then (if |s| + start < 0 then 0 else |s| + start)
             else (if start > |s| then |s| else start);
    if k < |s| then s[..k] + s[k + 1..] else s
  }

  /** Removing the element at `i` takes exactly one copy of it out of the multiset. */
  lemma RemoveAtMultiset<T>(s: seq<T>, i: nat)
    requires i < |s|
    ensures multiset(s[..i] + s[i + 1..]) == multiset(s) - multiset{s[i]}
  {
    assert s == s[..i] + [s[i]] + s[i + 1..];
    calc {
      multiset(s);
      multiset(s[..i] + [s[i]] + s[i + 1..]);
      multiset(s[..i]) + multiset{s[i]} + multiset(s[i + 1..]);
    }
  }

  /** Removing one copy of `s[i]` from a multiset that holds `rest` plus it leaves `rest`. */
  lemma RemoveOne<T>(s: seq<T>, rest: multiset<T>, i: nat)
    requires i < |s| && multiset(s) == rest + multiset{s[i]}
    ensures multiset(s[..i] + s[i + 1..]) == rest
  {
    RemoveAtMultiset(s, i);
    assert (rest + multiset{s[i]}) - multiset{s[i]} == rest;
  }
}

=== FILE: sample_reducers.dfy ===
/** The two small reducers the worked examples run through the store and the combinator. */
module SampleReducers {
  import opened Js

  /**
   A counter: an undefined state starts at 0, an action whose `type` is
   `'INC'` adds one, and any other action returns the state as it is. Reading
   `action.type` throws on an undefined or null action. Meant for number
   states: on any other state `INC` gives 1, where JavaScript's `state + 1`
   would concatenate or coerce.
   */
  function Counter(state: Value, action: Value): (r: Completion<Value>)
    ensures Member(action, "type").Abrupt? ==> r == Abrupt(TypeError)
    ensures Member(action, "type").Normal? && !Identical(Member(action, "type").value, Str("INC")) ==>
              r == Normal(if state.Undefined? then Num(0) else state)
    ensures state.Num? && Member(action, "type") == Normal(Str("INC")) ==> r == Normal(Num(state.n + 1))
  {
    var current := if state.Undefined? then Num(0) else state;
    match Member(action, "type")
    case Abrupt(e) => Abrupt(e)
    case Normal(t) =>
      if Identical(t, Str("INC")) then Normal(Num((if current.Num? then current.n else 0) + 1))
      else Normal(current)
  }

  /** `(s = 'x', a) => s`: a slice that starts at `'x'` and ignores every action. */
  function Name(state: Value, action: Value): Completion<Value> {
    Normal(if state.Undefined? then Str("x") else state)
  }
}

=== FILE: store.dfy ===
/**
 The store `createStore` builds. The closure variables of the source become
 the fields of an immutable `Store` record, and each of the store's
 functions becomes a pure function from one record to the next.

 Listener arrays have identity in the source (`nextListeners === currentListeners`),
 so the model keeps them in a small heap `arrays` and lets `currentListeners`
 and `nextListeners` be addresses in it. What listeners do when they are called
 is given by a `World`: each call runs a sequence of store operations, which
 may themselves dispatch, subscribe or unsubscribe.
 */
module Store {
  import opened Js
  import opened ActionTypes
  import JsArray

  /** A listener function, by identity. */
  type ListenerId = nat
  /** The `unsubscribe` closure returned by one call of `subscribe`. */
  type Handle = nat
  /** The address of a listener array. */
  type ArrayRef = nat

  /** The state one `unsubscribe` closure captures: its listener and its `isSubscribed` flag. */
  datatype Subscription = Subscription(listener: ListenerId, isSubscribed: bool)

  datatype Store = Store(
    currentState: Value,
    currentReducer: Reducer,
    arrays: seq<seq<ListenerId>>,
    currentListeners: ArrayRef,
    nextListeners: ArrayRef,
    isDispatching: bool,
    subscriptions: seq<Subscription>,
    alloc: Ref)  // the next free address for the `{ type: INIT }` objects the store makes

  /** A store operation a listener performs when it is called. */
  datatype Op =
    | CallGetState
    | CallSubscribe(listener: Callable<ListenerId>)
    | CallUnsubscribe(handle: Handle)
    | CallDispatch(action: Value)
    | CallReplaceReducer(nextReducer: Callable<Reducer>)
    | Throw(error: Error)

  /** What each listener does when called, given the state it can read with `getState`. */
  datatype World = World(listen: (ListenerId, Value) -> seq<Op>)

  /** Listeners that return without touching the store. */
  ghost predicate Passive(w: World) {
    forall l, s :: w.listen(l, s) == []
  }

  /**
   The end of a store operation: the store afterwards, how the call completed,
   and the listeners the operation's own notification loop called, in order.
   */
  datatype Run<+T> = Run(store: Store, result: Completion<T>, notified: seq<ListenerId>)

  /** What `createStore` hands back: the enhancer's store, or a store of its own. */
  datatype Creation =
    | Delegated(enhancer: Value, reducer: Callable<Reducer>, preloadedState: Value)
    | Created(store: Store)

  /** The listeners whose `unsubscribe` has not been called yet, with multiplicity. */
  function Subscribed(subs: seq<Subscription>): multiset<ListenerId>
  {
    if |subs| == 0 then multiset{}
    else
      var last := subs[|subs| - 1];
      Subscribed(subs[..|subs| - 1]) + (if last.isSubscribed then multiset{last.listener} else multiset{})
  }

  ghost predicate WellFormed(st: Store) {
    st.currentListeners < |st.arrays| && st.nextListeners < |st.arrays|
  }

  /**
   The listener-list invariant: `nextListeners` holds exactly the listeners of
   the live subscriptions. It is why `indexOf` in `unsubscribe` never returns -1.
   */
  ghost predicate Valid(st: Store) {
    WellFormed(st) && multiset(st.arrays[st.nextListeners]) == Subscribed(st.subscriptions)
  }

  /**
   Array `a` will not be written again: only `nextListeners` is ever written,
   and only after it has been made distinct from `currentListeners`.
   */
  ghost predicate Frozen(st: Store, a: ArrayRef) {
    a < |st.arrays| && (a == st.currentListeners || a != st.nextListeners)
  }

  /** `st'` follows `st`: every frozen array stays frozen and keeps its contents. */
  ghost predicate Evolves(st: Store, st': Store) {
    && |st.arrays| <= |st'.arrays|
    && forall a: ArrayRef | Frozen(st, a) :: Frozen(st', a) && st'.arrays[a] == st.arrays[a]
  }

  /** Neither the state, the reducer, the flag nor the allocator moved. */
  ghost predicate SameCore(st: Store, st': Store) {
    && st'.currentState == st.currentState
    && st'.currentReducer == st.currentReducer
    && st'.isDispatching == st.isDispatching
    && st'.alloc == st.alloc
  }

  lemma {:induction false} SubscribedAppend(subs: seq<Subscription>, s: Subscription)
    ensures Subscribed(subs + [s]) == Subscribed(subs) + (if s.isSubscribed then multiset{s.listener} else multiset{})
  {
    assert (subs + [s])[..|subs|] == subs;
  }

  /** Clearing one live subscription's flag takes one copy of its listener out. */
  lemma {:induction false} SubscribedClear(subs: seq<Subscription>, h: nat)
    requires h < |subs| && subs[h].isSubscribed
    ensures Subscribed(subs) == Subscribed(subs[h := subs[h].(isSubscribed := false)]) + multiset{subs[h].listener}
    decreases |subs|
  {
    var subs' := subs[h := subs[h].(isSubscribed := false)];
    var n := |subs| - 1;
    assert subs'[n] == if h == n then subs[h].(isSubscribed := false) else subs[n];
    if h == n {
      assert subs'[..n] == subs[..n];
    } else {
      assert subs'[..n] == subs[..n][h := subs[h].(isSubscribed := false)];
      SubscribedClear(subs[..n], h);
    }
  }

  /**
   The `unsubscribe` step on `nextListeners`: while the invariant holds, the
   listener is in the array, so `indexOf` finds it, and `splice` takes out
   exactly the copy the closing subscription accounted for.
   */
  lemma RemoveListener(list: seq<ListenerId>, subs: seq<Subscription>, h: nat)
    requires h < |subs| && subs[h].isSubscribed
    requires multiset(list) == Subscribed(subs)
    ensures JsArray.IndexOf(list, subs[h].listener) >= 0
    ensures multiset(JsArray.Splice1(list, JsArray.IndexOf(list, subs[h].listener)))
         == Subscribed(subs[h := subs[h].(isSubscribed := false)])
  {
    var l := subs[h].listener;
    var cleared := subs[h := subs[h].(isSubscribed := false)];
    SubscribedClear(subs, h);
    assert l in list by {
      assert l in multiset(list);
    }
    var i := JsArray.IndexOf(list, l);
    assert JsArray.Splice1(list, i) == list[..i] + list[i + 1..];
    JsArray.RemoveOne(list, Subscribed(cleared), i);
  }

  /** `getState()`. */
  function GetState(st: Store): (r: Value)
    ensures r == st.currentState
  {
    st.currentState
  }

  /**
   `ensureCanMutateNextListeners()`: if `nextListeners` is the array
   `currentListeners` refers to, point it at a fresh copy first.
   */
  function EnsureCanMutateNextListeners(st: Store): (r: Store)
    requires WellFormed(st)
    ensures WellFormed(r) && Evolves(st, r)
    ensures r.nextListeners != r.currentListeners
    ensures r.arrays[r.nextListeners] == st.arrays[st.nextListeners]
    ensures r.currentListeners == st.currentListeners
    ensures r.subscriptions == st.subscriptions && SameCore(st, r)
  {
    if st.nextListeners == st.currentListeners then
      st.(arrays := st.arrays + [st.arrays[st.currentListeners]], nextListeners := |st.arrays|)
    else
      st
  }

  /** Store `list` as the new contents of `nextListeners`, once it is a private copy. */
  function WriteNextListeners(st: Store, list: seq<ListenerId>): (r: Store)
    requires WellFormed(st) && st.nextListeners != st.currentListeners
    ensures WellFormed(r) && Evolves(st, r)
    ensures r.arrays[r.nextListeners] == list
    ensures r.arrays[r.currentListeners] == st.arrays[st.currentListeners]
    ensures r.nextListeners != r.currentListeners
    ensures r.(arrays := st.arrays) == st
  {
    st.(arrays := st.arrays[st.nextListeners := list])
  }

  /**
   `subscribe(listener)`: rejects a non-function; otherwise appends the
   listener to a copy-on-write `nextListeners` and hands back a new
   `unsubscribe` closure. The array being notified is never touched.
   */
  function Subscribe(st: Store, listener: Callable<ListenerId>): (r: Run<Handle>)
    requires Valid(st)
    ensures Valid(r.store) && Evolves(st, r.store) && SameCore(st, r.store) && r.notified == []
    ensures listener.NotFunction? ==> r.store == st && r.result == Abrupt(ListenerNotFunction)
    ensures listener.Function? ==>
      && r.result == Normal(|st.subscriptions|)
      && r.store.arrays[r.store.nextListeners] == st.arrays[st.nextListeners] + [listener.f]
      && r.store.subscriptions == st.subscriptions + [Subscription(listener.f, true)]
      && r.store.currentListeners == st.currentListeners
      && r.store.nextListeners != r.store.currentListeners
      && r.store.arrays[r.store.currentListeners] == st.arrays[st.currentListeners]
  {
    match listener
    case NotFunction(_) => Run(st, Abrupt(ListenerNotFunction), [])
    case Function(l) =>
      var st1 := EnsureCanMutateNextListeners(st);
      var sub := Subscription(l, true);
      SubscribedAppend(st.subscriptions, sub);
      var st2 := WriteNextListeners(st1, st1.arrays[st1.nextListeners] + [l]);
      Run(st2.(subscriptions := st.subscriptions + [sub]), Normal(|st.subscriptions|), [])
  }

  /**
   `r`'s `nextListeners` is `st`'s with the first copy of `l` spliced out (one
   copy fewer in the multiset), and the array being notified is untouched.
   */
  ghost predicate RemovedFirst(st: Store, r: Store, l: ListenerId)
    requires WellFormed(st) && WellFormed(r)
  {
    var list := st.arrays[st.nextListeners];
    var i := JsArray.IndexOf(list, l);
    && 0 <= i
    && r.arrays[r.nextListeners] == list[..i] + list[i + 1..]
    && multiset(r.arrays[r.nextListeners]) == multiset(list) - multiset{l}
    && r.currentListeners == st.currentListeners
    && r.arrays[r.currentListeners] == st.arrays[st.currentListeners]
  }

  /**
   Calling the `unsubscribe` closure `h`: the first call removes the first copy
   of its listener from a copy-on-write `nextListeners`; later calls do nothing.
   */
  function Unsubscribe(st: Store, h: Handle): (r: Store)
    requires Valid(st) && h < |st.subscriptions|
    ensures Valid(r) && Evolves(st, r) && SameCore(st, r)
    ensures |r.subscriptions| == |st.subscriptions| && !r.subscriptions[h].isSubscribed
    ensures !st.subscriptions[h].isSubscribed ==> r == st
    ensures st.subscriptions[h].isSubscribed ==>
      && RemovedFirst(st, r, st.subscriptions[h].listener)
      && r.subscriptions == st.subscriptions[h := Subscription(st.subscriptions[h].listener, false)]
  {
    var sub := st.subscriptions[h];
    if !sub.isSubscribed then st
    else
      var list := st.arrays[st.nextListeners];
      var cleared := st.subscriptions[h := sub.(isSubscribed := false)];
      RemoveListener(list, st.subscriptions, h);
      var r := RemoveFromNextListeners(st, sub.listener, cleared);
      assert r.arrays[r.nextListeners] == JsArray.Splice1(list, JsArray.IndexOf(list, sub.listener));
      r
  }

  /**
   The body of a first `unsubscribe` call, once its flag is cleared (giving
   `subscriptions`): copy-on-write, then `splice(indexOf(listener), 1)`.
   */
  function RemoveFromNextListeners(st: Store, listener: ListenerId, subscriptions: seq<Subscription>): (r: Store)
    requires WellFormed(st) && listener in st.arrays[st.nextListeners]
    ensures WellFormed(r) && Evolves(st, r) && SameCore(st, r)
    ensures RemovedFirst(st, r, listener)
    ensures r.subscriptions == subscriptions
  {
    var st0 := st.(subscriptions := subscriptions);
    var st1 := EnsureCanMutateNextListeners(st0);
    var r := SpliceNext(st1, listener);
    EvolvesTransitive(st0, st1, r);
    r
  }

  /** `nextListeners.splice(nextListeners.indexOf(listener), 1)` on a private `nextListeners`. */
  function SpliceNext(st: Store, listener: ListenerId): (r: Store)
    requires WellFormed(st) && st.nextListeners != st.currentListeners
    requires listener in st.arrays[st.nextListeners]
    ensures WellFormed(r) && Evolves(st, r) && RemovedFirst(st, r, listener)
    ensures r.(arrays := st.arrays) == st
  {
    var list := st.arrays[st.nextListeners];
    var index := JsArray.IndexOf(list, listener);
    var spliced := JsArray.Splice1(list, index);
    assert spliced == list[..index] + list[index + 1..];
    assert multiset(spliced) == multiset(list) - multiset{listener} by {
      JsArray.RemoveAtMultiset(list, index);
    }
    WriteNextListeners(st, spliced)
  }

  /** `Evolves` composes. */
  lemma EvolvesTransitive(a: Store, b: Store, c: Store)
    requires Evolves(a, b) && Evolves(b, c)
    ensures Evolves(a, c)
  {
  }

  /** `action.type`, for an action already known to be an object. */
  function ActionType(action: Value): Value
    requires action.Obj?
  {
    Member(action, "type").value
  }

  /** The three checks `dispatch` makes before calling the reducer all pass. */
  predicate Admissible(st: Store, action: Value) {
    IsPlainObject(action) && !ActionType(action).Undefined? && !st.isDispatching
  }

  /**
   The part of `dispatch` before notification: the three checks in order, the
   reducer call with `isDispatching` raised and always lowered again, the new
   state, and the snapshot `currentListeners = nextListeners`. On every
   failure the store is left as it was.
   */
  function Commit(st: Store, action: Value): (r: Completion<Store>)
    requires WellFormed(st)
    ensures !IsPlainObject(action) ==> r == Abrupt(ActionNotPlainObject)
    ensures IsPlainObject(action) && ActionType(action).Undefined? ==> r == Abrupt(ActionTypeUndefined)
    ensures (IsPlainObject(action) && !ActionType(action).Undefined? && st.isDispatching)
              ==> r == Abrupt(ReducersMayNotDispatch)
    ensures r.Normal? <==> Admissible(st, action) && st.currentReducer(st.currentState, action).Normal?
    ensures (Admissible(st, action) && st.currentReducer(st.currentState, action).Abrupt?)
              ==> r == Abrupt(st.currentReducer(st.currentState, action).error)
    ensures r.Normal? ==>
      && WellFormed(r.value) && Evolves(st, r.value)
      && r.value.currentState == st.currentReducer(st.currentState, action).value
      && !r.value.isDispatching
      && r.value.currentListeners == r.value.nextListeners == st.nextListeners
      && r.value.arrays == st.arrays
      && r.value.subscriptions == st.subscriptions
      && r.value.currentReducer == st.currentReducer
      && r.value.alloc == st.alloc
  {
    if !IsPlainObject(action) then Abrupt(ActionNotPlainObject)
    else if ActionType(action).Undefined? then Abrupt(ActionTypeUndefined)
    else if st.isDispatching then Abrupt(ReducersMayNotDispatch)
    else
      var during := st.(isDispatching := true);
      var next := during.currentReducer(during.currentState, action);
      var after := during.(isDispatching := false);   // the `finally` block
      match next
      case Abrupt(e) => Abrupt(e)
      case Normal(s) => Normal(after.(currentState := s, currentListeners := after.nextListeners))
  }

  /**
   `dispatch(action)`: `Commit`, then every listener of the snapshot is
   called in order, and the action itself is returned. An error a listener
   raises ends the loop and leaves `dispatch` with the state already committed.
   Each nested `dispatch` made by a listener spends one unit of `depth`.
   */
  function Dispatch(st: Store, action: Value, w: World, depth: nat): (r: Run<Value>)
    requires Valid(st)
    ensures Valid(r.store) && Evolves(st, r.store) && r.store.isDispatching == st.isDispatching
    ensures Commit(st, action).Abrupt? ==> r == Run(st, Abrupt(Commit(st, action).error), [])
    ensures Commit(st, action).Normal? && r.result.Normal? ==>
              r.result.value == action && r.notified == st.arrays[st.nextListeners]
    ensures Commit(st, action).Normal? && r.result.Abrupt? ==>
              0 < |r.notified| && r.notified <= st.arrays[st.nextListeners]
    ensures Commit(st, action).Normal? && st.arrays[st.nextListeners] == [] ==>
              r == Run(Commit(st, action).value, Normal(action), [])
    decreases depth, 2, 0
  {
    match Commit(st, action)
    case Abrupt(e) => Run(st, Abrupt(e), [])
    case Normal(st1) =>
      var listeners := st1.currentListeners;
      var n := Notify(st1, listeners, st1.arrays[listeners], 0, w, depth);
      Run(n.store, if n.result.Normal? then Normal(action) else Abrupt(n.result.error), n.notified)
  }

  /**
   The notification loop from position `i`. It reads the live array
   `listeners` at each step, as the source does; the requires clause, kept
   by every operation a listener can perform, is what makes that array
   equal to the snapshot throughout.
   */
  function Notify(st: Store, listeners: ArrayRef, snapshot: seq<ListenerId>, i: nat, w: World, depth: nat): (r: Run<()>)
    requires Valid(st) && Frozen(st, listeners) && st.arrays[listeners] == snapshot && i <= |snapshot|
    ensures Valid(r.store) && Evolves(st, r.store) && r.store.isDispatching == st.isDispatching
    ensures r.result.Normal? ==> r.notified == snapshot[i..]
    ensures r.result.Abrupt? ==> 0 < |r.notified| && r.notified <= snapshot[i..]
    ensures i == |snapshot| ==> r == Run(st, Normal(()), [])
    decreases depth, 1, |snapshot| - i
  {
    if i == |st.arrays[listeners]| then Run(st, Normal(()), [])
    else
      var listener := st.arrays[listeners][i];
      var call := RunOps(st, w.listen(listener, GetState(st)), w, depth);
      assert snapshot[i..] == [listener] + snapshot[i + 1..];
      if call.result.Abrupt? then Run(call.store, call.result, [listener])
      else
        var rest := Notify(call.store, listeners, snapshot, i + 1, w, depth);
        Run(rest.store, rest.result, [listener] + rest.notified)
  }

  /** Drop the value of a completion, keeping only whether and how it threw. */
  function Discard<T>(c: Completion<T>): (d: Completion<()>)
    ensures d.Abrupt? <==> c.Abrupt?
    ensures c.Abrupt? ==> d.error == c.error
  {
    match c
    case Normal(_) => Normal(())
    case Abrupt(e) => Abrupt(e)
  }

  /** One listener call: its operations in order, stopping at the first that throws. */
  function RunOps(st: Store, ops: seq<Op>, w: World, depth: nat): (r: Run<()>)
    requires Valid(st)
    ensures Valid(r.store) && Evolves(st, r.store) && r.store.isDispatching == st.isDispatching
    ensures r.notified == []
    decreases depth, 0, |ops|
  {
    if |ops| == 0 then Run(st, Normal(()), [])
    else
      var step: Run<()> := (
        match ops[0]
        case CallGetState => Run(st, Normal(()), [])
        case CallSubscribe(l) =>
          var s := Subscribe(st, l);
          Run(s.store, Discard(s.result), [])
        case CallUnsubscribe(h) =>
          if h < |st.subscriptions| then Run(Unsubscribe(st, h), Normal(()), [])
          else Run(st, Abrupt(TypeError), [])
        case CallDispatch(a) =>
          if depth == 0 then Run(st, Abrupt(RangeError), [])
          else
            var d := Dispatch(st, a, w, depth - 1);
            Run(d.store, Discard(d.result), [])
        case CallReplaceReducer(c) =>
          if depth == 0 then Run(st, Abrupt(RangeError), [])
          else
            var d := ReplaceReducer(st, c, w, depth - 1);
            Run(d.store, d.result, [])
        case Throw(e) => Run(st, Abrupt(e), []));
      if step.result.Abrupt? then step
      else RunOps(step.store, ops[1..], w, depth)
  }

  /**
   `replaceReducer(nextReducer)`: rejects a non-function; otherwise installs
   it and dispatches `{ type: INIT }` to it. The new reducer stays installed
   even if that dispatch throws.
   */
  function ReplaceReducer(st: Store, nextReducer: Callable<Reducer>, w: World, depth: nat): (r: Run<()>)
    requires Valid(st)
    ensures Valid(r.store) && Evolves(st, r.store) && r.store.isDispatching == st.isDispatching
    ensures nextReducer.NotFunction? ==> r == Run(st, Abrupt(NextReducerNotFunction), [])
    ensures (nextReducer.Function? && !st.isDispatching
             && nextReducer.f(st.currentState, InitAction(st.alloc)).Abrupt?) ==>
              && r.result == Abrupt(nextReducer.f(st.currentState, InitAction(st.alloc)).error)
              && r.store == st.(currentReducer := nextReducer.f, alloc := st.alloc + 1)
              && r.notified == []
    ensures (nextReducer.Function? && !st.isDispatching && st.arrays[st.nextListeners] == []
             && nextReducer.f(st.currentState, InitAction(st.alloc)).Normal?) ==>
              && r.result == Normal(())
              && r.store.currentReducer == nextReducer.f
              && r.store.currentState == nextReducer.f(st.currentState, InitAction(st.alloc)).value
              && r.notified == []
    decreases depth, 3, 0
  {
    match nextReducer
    case NotFunction(_) => Run(st, Abrupt(NextReducerNotFunction), [])
    case Function(f) =>
      var st1 := st.(currentReducer := f, alloc := st.alloc + 1);
      var d := Dispatch(st1, InitAction(st.alloc), w, depth);
      Run(d.store, Discard(d.result), d.notified)
  }

  /** Listeners that do nothing; a fresh store has none to call anyway. */
  const Quiet: World := World((l: ListenerId, s: Value) => [])

  /**
   `createStore(reducer, preloadedState, enhancer)`: a function in the
   preloaded-state position with no enhancer is taken as the enhancer; a
   defined enhancer must be a function and takes over construction;
   otherwise the reducer must be a function, and the new store is seeded by
   dispatching `{ type: INIT }` (allocated at `alloc`) to it.
   */
  function CreateStore(reducer: Callable<Reducer>, preloadedState: Value, enhancer: Value, alloc: Ref): (r: Completion<Creation>)
    ensures preloadedState.Func? && enhancer.Undefined? ==>
              r == Normal(Delegated(preloadedState, reducer, Undefined))
    ensures !enhancer.Undefined? && !enhancer.Func? ==> r == Abrupt(EnhancerNotFunction)
    ensures enhancer.Func? ==> r == Normal(Delegated(enhancer, reducer, preloadedState))
    ensures enhancer.Undefined? && !preloadedState.Func? && reducer.NotFunction? ==>
              r == Abrupt(ReducerNotFunction)
    ensures enhancer.Undefined? && !preloadedState.Func? && reducer.Function? ==>
              var seeded := reducer.f(preloadedState, InitAction(alloc));
              && (seeded.Abrupt? ==> r == Abrupt(seeded.error))
              && (seeded.Normal? ==>
                    && r.Normal? && r.value.Created?
                    && Valid(r.value.store)
                    && r.value.store.currentState == seeded.value
                    && r.value.store.currentReducer == reducer.f
                    && !r.value.store.isDispatching
                    && r.value.store.arrays[r.value.store.nextListeners] == []
                    && r.value.store.subscriptions == [])
  {
    var (state, enh) := if preloadedState.Func? && enhancer.Undefined? then (Undefined, preloadedState)
                        else (preloadedState, enhancer);
    if !enh.Undefined? then
      if enh.Func? then Normal(Delegated(enh, reducer, state)) else Abrupt(EnhancerNotFunction)
    else
      match reducer
      case NotFunction(_) => Abrupt(ReducerNotFunction)
      case Function(f) =>
        var st := Store(state, f, [[]], 0, 0, false, [], alloc + 1);
        var d := Dispatch(st, InitAction(alloc), Quiet, 0);
        if d.result.Abrupt? then Abrupt(d.result.error) else Normal(Created(d.store))
  }
}

=== FILE: store_lemmas.dfy ===
/** Properties of the store that relate several of its operations. */
module StoreLemmas {
  import opened Js
  import opened ActionTypes
  import opened Store
  import opened SampleReducers

  /** Calling an `unsubscribe` closure a second time changes nothing. */
  lemma UnsubscribeIdempotent(st: Store, h: Handle)
    requires Valid(st) && h < |st.subscriptions|
    ensures Unsubscribe(Unsubscribe(st, h), h) == Unsubscribe(st, h)
  {
  }

  /**
   `subscribe` followed at once by its `unsubscribe` leaves the listeners the
   next dispatch will call as they were (as a multiset: when the listener was
   already subscribed, `indexOf` removes its earlier copy), and never touches
   the array a dispatch in progress is notifying.
   */
  lemma SubscribeThenUnsubscribe(st: Store, l: ListenerId)
    requires Valid(st)
    ensures var s := Subscribe(st, Function(l));
            && s.result.Normal?
            && var u := Unsubscribe(s.store, s.result.value);
            && multiset(u.arrays[u.nextListeners]) == multiset(st.arrays[st.nextListeners])
            && Subscribed(u.subscriptions) == Subscribed(st.subscriptions)
            && u.arrays[u.currentListeners] == st.arrays[st.currentListeners]
  {
    var s := Subscribe(st, Function(l));
    var h := s.result.value;
    assert s.store.subscriptions[h] == Subscription(l, true);
    var u := Unsubscribe(s.store, h);
    calc {
      multiset(u.arrays[u.nextListeners]);
      multiset(s.store.arrays[s.store.nextListeners]) - multiset{l};
      multiset(st.arrays[st.nextListeners] + [l]) - multiset{l};
      multiset(st.arrays[st.nextListeners]);
    }
  }

  /**
   While the reducer runs, `isDispatching` is true, so a dispatch it makes is
   rejected, after the action checks and before anything changes.
   */
  lemma ReducerCannotDispatch(st: Store, action: Value)
    requires WellFormed(st)
    requires IsPlainObject(action) && !ActionType(action).Undefined?
    ensures Commit(st.(isDispatching := true), action) == Abrupt(ReducersMayNotDispatch)
  {
  }

  /**
   `isDispatching` is lowered before listeners run, so a dispatch a listener
   makes is not rejected as reentrant: it reaches the reducer, whose result
   alone decides whether it commits.
   */
  lemma ListenersMayDispatch(st: Store, first: Value, second: Value)
    requires Valid(st) && Commit(st, first).Normal?
    requires IsPlainObject(second) && !ActionType(second).Undefined?
    ensures var during := Commit(st, first).value;
            && Admissible(during, second)
            && (Commit(during, second).Normal? <==> during.currentReducer(during.currentState, second).Normal?)
  {
  }

  /** With listeners that do nothing, the loop calls each of them once, in order, and changes nothing. */
  lemma {:induction false} NotifyPassive(st: Store, listeners: ArrayRef, snapshot: seq<ListenerId>, i: nat, w: World, depth: nat)
    requires Valid(st) && Frozen(st, listeners) && st.arrays[listeners] == snapshot && i <= |snapshot|
    requires Passive(w)
    ensures var r := Notify(st, listeners, snapshot, i, w, depth);
            r.store == st && r.result == Normal(()) && r.notified == snapshot[i..]
    decreases |snapshot| - i
  {
    if i < |snapshot| {
      assert w.listen(snapshot[i], GetState(st)) == [];
      NotifyPassive(st, listeners, snapshot, i + 1, w, depth);
    }
  }

  /**
   A dispatch that passes its checks, with listeners that do nothing: the new
   state is the reducer's result, every listener of the snapshot is called
   once in order, and the very action given is returned.
   */
  lemma DispatchPassive(st: Store, action: Value, w: World, depth: nat)
    requires Valid(st) && Passive(w)
    requires Admissible(st, action) && st.currentReducer(st.currentState, action).Normal?
    ensures var r := Dispatch(st, action, w, depth);
            && r.store == Commit(st, action).value
            && GetState(r.store) == st.currentReducer(st.currentState, action).value
            && r.result == Normal(action)
            && r.notified == st.arrays[st.nextListeners]
            && !r.store.isDispatching
            && r.store.currentListeners == r.store.nextListeners == st.nextListeners
  {
    var st1 := Commit(st, action).value;
    NotifyPassive(st1, st1.currentListeners, st1.arrays[st1.currentListeners], 0, w, depth);
  }

  /**
   `replaceReducer(f)`, with listeners that do nothing: `f` is installed and
   receives `{ type: INIT }` with the old state. If `f` throws, the error
   escapes, the state is kept, and `f` stays installed.
   */
  lemma ReplaceReducerPassive(st: Store, f: Reducer, w: World, depth: nat)
    requires Valid(st) && Passive(w) && !st.isDispatching
    ensures var r := ReplaceReducer(st, Function(f), w, depth);
            var seeded := f(st.currentState, InitAction(st.alloc));
            && r.store.currentReducer == f
            && (seeded.Normal? ==> r.result.Normal? && GetState(r.store) == seeded.value
                                   && r.notified == st.arrays[st.nextListeners])
            && (seeded.Abrupt? ==> r.result == Abrupt(seeded.error) && GetState(r.store) == st.currentState
                                   && r.notified == [])
  {
    var init := InitAction(st.alloc);
    var st1 := st.(currentReducer := f, alloc := st.alloc + 1);
    var d := Dispatch(st1, init, w, depth);
    assert ReplaceReducer(st, Function(f), w, depth) == Run(d.store, Discard(d.result), d.notified);
    assert Admissible(st1, init);
    if f(st.currentState, init).Normal? {
      DispatchPassive(st1, init, w, depth);
    } else {
      assert Commit(st1, init) == Abrupt(f(st.currentState, init).error);
    }
  }

  /**
   Whatever a listener does, the array being notified keeps the contents it
   had when `currentListeners = nextListeners` took the snapshot.
   */
  lemma ListenerCannotChangeSnapshot(st: Store, action: Value, ops: seq<Op>, w: World, depth: nat)
    requires Valid(st) && Commit(st, action).Normal?
    ensures var during := Commit(st, action).value;
            var after := RunOps(during, ops, w, depth);
            after.store.arrays[during.currentListeners] == st.arrays[st.nextListeners]
  {
    var during := Commit(st, action).value;
    assert Frozen(during, during.currentListeners);
  }

  /**
   A subscribe during notification leaves the array being iterated exactly
   as it was, and the new listener ends the snapshot the next dispatch takes.
   */
  lemma SubscribeTakesEffectNextCycle(st: Store, action: Value, l: ListenerId, next: Value)
    requires Valid(st) && Commit(st, action).Normal?
    ensures var during := Commit(st, action).value;
            var s := Subscribe(during, Function(l));
            && s.store.arrays[during.currentListeners] == st.arrays[st.nextListeners]
            && (Commit(s.store, next).Normal? ==>
                  var again := Commit(s.store, next).value;
                  again.arrays[again.currentListeners] == st.arrays[st.nextListeners] + [l])
  {
  }

  /** `createStore(counter)`, then two `{ type: 'INC' }` dispatches, leaves the state at 2. */
  lemma CounterDispatchedTwice(w: World)
    requires Passive(w)
    ensures var created := CreateStore(Function(Counter), Undefined, Undefined, 0);
            && created.Normal? && created.value.Created?
            && var st0 := created.value.store;
            && GetState(st0) == Num(0)
            && var st1 := Dispatch(st0, ActionObject(10, "INC"), w, 0).store;
            && Valid(st1)
            && GetState(Dispatch(st1, ActionObject(11, "INC"), w, 0).store) == Num(2)
  {
    var st0 := CreateStore(Function(Counter), Undefined, Undefined, 0).value.store;
    DispatchPassive(st0, ActionObject(10, "INC"), w, 0);
    var st1 := Dispatch(st0, ActionObject(10, "INC"), w, 0).store;
    DispatchPassive(st1, ActionObject(11, "INC"), w, 0);
  }
}
